=== FILE: README.md ===
# Portfolio view state, modelled in Dafny

This project models the view-state logic of a bilingual (Turkish/English) single-page
portfolio script, `assets/js/main.js`. It covers the language system, the theme toggle,
the project lightbox, the mobile navigation menu and the active nav-link highlighting.

The document is abstracted as plain data. One immutable record, `Dom.Page`, holds:

- `localStorage`, as a map from key to string (an absent key reads as `null`);
- the script's two variables `currentLang` and `theme`;
- the `[data-tr][data-en]` nodes and the `section h2` texts;
- the document title, the root `lang` attribute, the root class list and the language toggle's label;
- the lightbox overlay and the body's `overflow` style;
- the menu's `open` flag and `aria-expanded`;
- the `section[id]` offsets, `scrollY` and the nav links.

Every handler is a pure function from `Page` to `Page`. The modules follow the sections
of the script:

- `Storage`: `getItem(k) || default`.
- `Dom`: the abstracted document.
- `LanguageSystem`: `applyLanguage` and the language toggle.
- `ThemeSystem`: `applyTheme` and the theme toggle.
- `Catalog`: the `projectData` table.
- `LightboxSystem`: open, close and Escape.
- `MobileNav`: the menu toggle and the link-click close.
- `ActiveNav`: `updateActiveNav`.
- `PageEvents`: start-up, an event dispatcher (`Step`, `Run`) and the invariants
  `Consistent` and `StoreAgrees`. The dispatcher takes the project catalog as a
  parameter; on the site it is `ProjectData()`.

`localStorage` is shared by every tab open on the site, and the script has no `storage`
listener. The dispatcher therefore has one event besides the user's: another tab writing
`language` or `theme`, with a value that script can write. That write changes this tab's
store and nothing else.

There are two invariants:

- `Consistent`: the script's language, the rendered text, the root class, the lightbox
  flags, the menu flags and the highlighted links agree, and the store holds a language
  the page can render. Start-up establishes it and every event preserves it, including
  another tab's write.
- `StoreAgrees`: the store holds this tab's language under `language`, and its theme
  reads back as this tab's theme (an absent or empty `theme` reads as `"dark"`, so a
  page that never toggled the theme agrees without storing it). Start-up
  establishes it and every event of this tab preserves it. Another tab's write can break
  it, and `LightboxCanDisagree` shows the visible result.

The proof for `Consistent` rests on the document's section offsets staying fixed; see
"Left out".

Four behaviours one might expect do not hold in the code:

- Two language toggles do not always restore the original text. A node with an empty
  variant keeps whatever it showed before, so a node with English text but no Turkish
  text keeps the English text after toggling back. `LanguageToggleRoundTrip` proves the
  round trip under the condition that makes it hold. `RoundTripNeedsBothVariants` exhibits
  the failure when that condition is not met.
- A stored value outside the two languages or themes is not treated as unset. The code
  uses it as it is. A stored theme such as `"blue"` shows the dark look, and the first
  toggle then goes to `"dark"`, so nothing visible changes.
- The lightbox reads the language from `localStorage`, not from `currentLang`. It has no
  "active project" variable, and closing it keeps its content. While the store agrees
  with the page, the lightbox speaks the page's language (`LightboxSpeaksPageLanguage`).
  Once another tab has stored a different language, a Turkish page opens its projects
  in English (`LightboxReadsStore`, and `LightboxCanDisagree` on the site's own catalog).
- `updateActiveNav` with no section reached leaves `current` empty. It then marks every
  link whose href is exactly `"#"`, and the `UpdateActiveNav` contract states this case.

## Model

| member | source | states |
|---|---|---|
| Storage.GetOr | assets/js/main.js:8 | reading a key with a fallback yields the stored value when it is present and non-empty, and the fallback otherwise (absent and empty both fall through) |
| Storage.SetThenGet | assets/js/main.js:37 | a non-empty value written under a key is read back verbatim, and every other key reads as before |
| LanguageSystem.InitialLanguage | assets/js/main.js:8 | the starting language is the stored one when non-empty, else `"tr"`; it is never empty |
| LanguageSystem.NextLanguage | assets/js/main.js:45 | the toggle always yields `"tr"` or `"en"` and always differs from its input; any value other than those two goes to `"tr"` |
| LanguageSystem.NextLanguageInvolution | assets/js/main.js:45 | on `"tr"`/`"en"` two toggles return to the start |
| LanguageSystem.ToggleLabel | assets/js/main.js:39-41 | the toggle's label is the short code of the other language (`"EN"` while Turkish shows, `"TR"` while English shows), never the current one |
| LanguageSystem.RenderNodes | assets/js/main.js:11-14 | each node keeps both variant attributes; a node whose variant for the language is non-empty shows it; a node whose variant is empty is unchanged |
| LanguageSystem.OverwriteHeadings | assets/js/main.js:31-34 | heading i takes table entry i for i below min(table length, heading count); later headings are untouched; the heading count is unchanged |
| LanguageSystem.ApplyLanguage | assets/js/main.js:10-42 | afterwards the page shows the language: title, root `lang`, stored `language`, toggle label, every node with a non-empty variant, the first five headings; nodes with an empty variant and later headings are unchanged; nothing else changes |
| LanguageSystem.ShowsIffFixpoint | assets/js/main.js:10-42 | a page already shows a language exactly when applying that language changes nothing (both directions) |
| LanguageSystem.ApplyLanguageIdempotent | assets/js/main.js:10-42 | applying the same language twice equals applying it once |
| LanguageSystem.RenderNodesLastWins | assets/js/main.js:11-14 | rendering the nodes in `a` and then `b` equals rendering them in `b` when no node has text in `a` but none in `b` |
| LanguageSystem.OverwriteHeadingsLastWins | assets/js/main.js:31-34 | overwriting the headings with one table and then with a table at least as long equals using the second table alone |
| LanguageSystem.ApplyLanguageLastWins | assets/js/main.js:10-42 | applying `a` then `b` equals applying `b` alone when no node has an empty `b` variant but a non-empty `a` variant |
| LanguageSystem.ToggleLanguage | assets/js/main.js:44-48 | the click flips `currentLang` to the next language, which differs from the old one; the page shows it, the store holds it under `language` and a later read returns it; node variants, nodes without text in the new language, node and heading counts and headings past the table are kept; the theme, every other store key, the lightbox, the menu and the links are untouched |
| LanguageSystem.LanguageToggleRoundTrip | assets/js/main.js:44-46 | two clicks restore a page that shows its current language, provided every node with text in the other language also has text in the current one |
| LanguageSystem.RoundTripNeedsBothVariants | assets/js/main.js:12-13 | a node with English text but no Turkish text still shows the English text after two clicks from Turkish, so the page is not restored |
| Catalog.ProjectData | assets/js/main.js:290-345 | the catalog has exactly the six project ids; every record has a first image and non-empty titles and descriptions in both languages |
| LightboxSystem.AppendTags | assets/js/main.js:360-364 | appending one item per tag yields the old list followed by the tags, in order |
| LightboxSystem.OpenLightbox | assets/js/main.js:347-369 | an id the catalog does not hold changes nothing; a held id shows the first image, the title (as alt and heading) and description in the stored language, the tag list equal to the record's tags with nothing left over, and sets the overlay active, `aria-hidden` `"false"` and overflow `"hidden"`; nothing else changes |
| LightboxSystem.CloseLightbox | assets/js/main.js:371-375 | the overlay is inactive, `aria-hidden` is `"true"` and overflow is `""`; the overlay's content and the rest of the page are unchanged |
| LightboxSystem.KeyDown | assets/js/main.js:382-386 | Escape on an open lightbox closes it; any other key, or Escape on a closed lightbox, changes nothing; the handler never opens the lightbox |
| LightboxSystem.OpenReplaces | assets/js/main.js:347-368 | opening any id and then a known id `b` equals opening `b` alone, and the tags are exactly `b`'s |
| LightboxSystem.CloseIdempotent | assets/js/main.js:371-375 | closing twice equals closing once |
| LightboxSystem.CloseAfterOpen | assets/js/main.js:347-375 | open then close leaves the same flags, scroll lock and page as close alone; only the overlay's content differs |
| ThemeSystem.InitialTheme | assets/js/main.js:52 | the starting theme is the stored one when non-empty, else `"dark"` |
| ThemeSystem.NextTheme | assets/js/main.js:60 | the toggle yields `"dark"` or `"light"` and always differs from its input; any value other than those two goes to `"dark"` |
| ThemeSystem.ApplyTheme | assets/js/main.js:54-57 | the root has class `light` exactly when the theme is `"light"`; every other root class and the rest of the page are unchanged |
| ThemeSystem.ApplyThemeIdempotent | assets/js/main.js:54-57 | applying a theme twice equals applying it once |
| ThemeSystem.ToggleTheme | assets/js/main.js:59-64 | the click flips `theme`, stores it so that a later read returns it, and sets class `light` exactly when the new theme is light; nothing else changes |
| ThemeSystem.ThemeToggleInvolution | assets/js/main.js:59-62 | two clicks restore a page whose theme is dark or light, is stored, and matches the root class |
| MobileNav.ToggleNav | assets/js/main.js:128-137 | the click flips `open`, and afterwards `aria-expanded` is `"true"` exactly when open; nothing else changes |
| MobileNav.NavListClick | assets/js/main.js:140-145 | a click on an `A` leaves the menu closed with `aria-expanded` `"false"`; a click on anything else changes nothing; flags in step stay in step |
| MobileNav.ToggleNavInvolution | assets/js/main.js:128-137 | two toggles restore a menu whose flags are in step |
| MobileNav.LinkClickIdempotent | assets/js/main.js:140-145 | a second link click changes nothing |
| ActiveNav.ScanFindsLastReached | assets/js/main.js:248-254 | the section loop keeps its start value when no section has `scrollY >= offsetTop - 100`, and otherwise ends on the id of the last such section |
| ActiveNav.LastReachedExists | assets/js/main.js:249-254 | if any section is reached, a last reached section exists, so the two cases above cover every scroll position |
| ActiveNav.ScanSections | assets/js/main.js:249-254 | the section loop ends on its start value or on the id of a section that is reached |
| ActiveNav.CurrentSection | assets/js/main.js:248-254 | the current section is empty or the id of a reached section |
| ActiveNav.MarkLinks | assets/js/main.js:256-261 | each link keeps its href and is active exactly when its href is `#` + current |
| ActiveNav.UpdateActiveNav | assets/js/main.js:247-262 | a link is active exactly when its href is `#` + the id of the last reached section, or exactly `"#"` when none is reached; hrefs and the rest of the page are unchanged |
| ActiveNav.Scroll | assets/js/main.js:264 | after scrolling to `y`, the links keep their number and hrefs, and a link is active exactly when its href is `#` + the current section at `y`; only `scrollY` and the links' `active` flags change |
| PageEvents.Boot | assets/js/main.js:8-52 | script start reads `currentLang` and `theme` from the store with their defaults; it then highlights the links for the starting scroll position, as the call on line 265 does, keeping their number and hrefs; nothing else changes |
| PageEvents.Load | assets/js/main.js:94-99 | after loading, the page shows `currentLang` and the store holds it; class `light` is present exactly for the light theme and the other root classes are kept; node variants, nodes without text in the language and headings past the table are kept; the theme is not stored, and the lightbox, menu, sections, scroll position and links are untouched |
| PageEvents.StartUp | assets/js/main.js:94-99 | the loaded page starts with the stored language and theme (defaults `"tr"` and `"dark"`), shows that language and stores it under `language`, leaving every other store key as it was (the theme is not written); class `light` is present exactly for the light theme and the other root classes are kept; node variants, nodes without text in the language and headings past the table are kept; sections and scroll position are unchanged; the links keep their number and hrefs and are highlighted for the starting scroll position; the lightbox, overflow and menu are those of the markup |
| PageEvents.StartUpConsistent | assets/js/main.js:94-99 | markup with the lightbox closed and the menu in step, plus a stored language that is absent, empty, `"tr"` or `"en"`, loads into a consistent page whose store agrees with it |
| PageEvents.DefaultsOnFirstLoad | assets/js/main.js:94-99 | with an empty store the page loads in Turkish, dark, titled in Turkish, labelled `"EN"`, with only `language = "tr"` stored |
| PageEvents.Step | assets/js/main.js:44-396 | dispatching any event, including another tab's write, leaves a language the lightbox can render in the store |
| PageEvents.StepTouchesOnlyItsPart | assets/js/main.js:44-396 | no event moves a section; only scrolling changes the scroll position and links; only the language click changes the language and the rendered text; only the theme click changes the theme and root classes; only the two clicks and another tab write to the store; only a view button opens the lightbox |
| PageEvents.LanguageTogglePreserves | assets/js/main.js:44-48 | the language click keeps the page consistent and keeps the store in agreement |
| PageEvents.ThemeTogglePreserves | assets/js/main.js:59-64 | the theme click keeps the page consistent and keeps the store in agreement |
| PageEvents.NavHandlersPreserve | assets/js/main.js:128-145 | both menu handlers keep the page consistent and the store in agreement |
| PageEvents.LightboxHandlersPreserve | assets/js/main.js:347-386 | opening, closing and the Escape handler keep the page consistent and the store in agreement |
| PageEvents.ScrollPreserves | assets/js/main.js:247-264 | scrolling keeps the page consistent and the store in agreement |
| PageEvents.OtherTabPreserves | assets/js/main.js:8-64 | a write by another tab of a value the script can store keeps the page consistent |
| PageEvents.StepPreservesConsistent | assets/js/main.js:44-396 | every event keeps the page consistent; every event of this tab also keeps the store in agreement |
| PageEvents.Run | assets/js/main.js:44-396 | any sequence of events from a consistent page ends in a consistent page; if the store agreed at the start and no other tab wrote, it still agrees |
| PageEvents.LightboxSpeaksPageLanguage | assets/js/main.js:351-356 | while the store agrees with a consistent page, the lightbox shows the project's title and description in the language the page shows, and the title is non-empty |
| PageEvents.OtherTabLanguageWrite | assets/js/main.js:8-37 | another tab storing a language changes only this tab's store, which then reads back that language, and the page stays consistent |
| PageEvents.LightboxReadsStore | assets/js/main.js:351-356 | after another tab stores English, a Turkish page still shows Turkish and its store no longer agrees, yet the lightbox title is the English one, which differs from the page-language title whenever the two titles differ |
| PageEvents.LightboxCanDisagree | assets/js/main.js:351-356 | on the site's catalog, that Turkish page opens the robots project under "FRC Team #8795 — Robots" |
| PageEvents.ReloadRestoresPreferences | assets/js/main.js:8-52 | reloading a page whose store agrees with it starts with the language and theme it was showing |
| PageEvents.LightThemeSurvivesReload | assets/js/main.js:59-62 | after switching from dark to light, a reload starts in the light theme |

## Left out

- Loading screen and staggered section reveal (lines 66-74, 95, 107-121): timers and animation only.
- Image error handling (lines 76-91, 105, 120): load/error listeners that log and restyle images.
- Decorative effects (lines 158-241, 400-445): intersection-observer reveal, parallax, 3D tilt, card hover and cursor trail. They rely on floating-point geometry, `Math.random` and `Date.now`.
- Smooth scrolling (lines 147-156): a thin wrapper over `scrollIntoView`.
- Analytics, console logging and performance metrics (lines 47, 63, 267-278, 447-475).
- Footer year (line 102): reads the wall clock.
- Storage failures: the code does not catch `localStorage` errors, so the store is always available.
- LightboxSystem.OpenLightbox: for an id the catalog holds, it requires a stored language of `"tr"` or `"en"` (or none). With any other stored value the code reads `undefined` from the title table, and that path is not modelled; `Consistent` guarantees a renderable stored language.
- LightboxSystem.OpenLightbox: treats the catalog as a plain map, so an id it does not hold changes nothing. In the code, `projectData[id]` also finds the names `Object.prototype` provides, such as `constructor`, `toString` or `__proto__`; for those `data.images` is undefined and line 353 throws. This path is left out because the ids come only from the `data-project` attributes of the site's static markup, never from user input; the markup is not part of this model.
- LanguageSystem.ApplyLanguage: requires `"tr"` or `"en"`. Any other value makes `headers[lang]` undefined and throws, which is not modelled.
- Catalog.ProjectData: keeps each project's id, images, titles and tags. Each long description is replaced by a one-line placeholder in both languages.
- Pixel positions: `offsetTop` and `scrollY` are whole numbers. The browser reports `scrollY` as a floating-point value.
- Node identity: the bilingual nodes and the `section h2` headings are separate lists. If one element is both, the script writes it twice, nodes first and headings second, and this aliasing is not modelled. The lists also assume that no bilingual node or heading contains another modelled element: assigning `textContent` (lines 13, 33 and 41) replaces all of an element's children, so a nested bilingual node, a heading or the toggle's `<span>` inside a bilingual node would be detached by the first render and missed by later queries.
- Lightbox triggers: the view-button handler (lines 389-398) is the `ViewButtonClicked` event. `stopPropagation` and reading `data-project` from the card are not modelled.
- Section offsets: the model keeps every section's `offsetTop` fixed, and the proofs that events preserve `Consistent` rely on it. In a browser, re-rendering the text in another language can reflow the page and move sections. The highlight is recomputed only on scroll, so it can lag until the next scroll.
- PageEvents.Possible: another tab's writes are limited to what this script stores: `"tr"` or `"en"` under `language`, `"dark"` or `"light"` under `theme`. A write of anything else, from developer tools or another script on the origin, could leave a language the lightbox cannot render, and is not modelled.
- Live DOM queries: `applyLanguage` queries the bilingual nodes and the `section h2` headings again on every call (lines 11 and 31); the model keeps both lists fixed, because the script adds and removes no such elements, given the nesting assumption under "Node identity". The sections, the nav links (lines 244-245) and the lightbox elements (lines 281-287) are captured once by the script itself, as the model does.

=== FILE: active_nav.dfy ===
/** Active nav-link highlighting (`updateActiveNav`, run on load and on every scroll). The
    current section is the last one, in document order, whose top minus 100 pixels has been
    scrolled past; exactly the links pointing at `#` + its id are marked active. */
module ActiveNav {
  import opened Dom

  /** The offset subtracted from a section's top before comparing with `scrollY`. */
  const ScrollOffset := 100

  predicate Reached(s: Section, scrollY: int) {
    scrollY >= s.offsetTop - ScrollOffset
  }

  /** Section k is reached and no later section is: the reference definition of the
      current section. */
  predicate IsLastReached(sections: seq<Section>, scrollY: int, k: int) {
    && 0 <= k < |sections|
    && Reached(sections[k], scrollY)
    && forall j :: k < j < |sections| ==> !Reached(sections[j], scrollY)
  }

  /** The `sections.forEach` loop: every reached section overwrites `current` with its id. */
  function ScanSections(sections: seq<Section>, scrollY: int, current: string): (r: string)
    ensures r == current || exists s :: s in sections && Reached(s, scrollY) && r == s.id
    decreases |sections|
  {
    if |sections| == 0 then current
    else ScanSections(sections[1..], scrollY, if Reached(sections[0], scrollY) then sections[0].id else current)
  }

  /** `current` after the loop, which starts from the empty string. */
  function CurrentSection(sections: seq<Section>, scrollY: int): (r: string)
    ensures r == "" || exists s :: s in sections && Reached(s, scrollY) && r == s.id
  {
    ScanSections(sections, scrollY, "")
  }

  /** The loop agrees with the reference definition: it keeps its start value when no
      section is reached, and otherwise ends on the id of the last reached section. */
  lemma {:induction false} ScanFindsLastReached(sections: seq<Section>, scrollY: int, current: string)
    ensures (forall j :: 0 <= j < |sections| ==> !Reached(sections[j], scrollY)) ==>
              ScanSections(sections, scrollY, current) == current
    ensures forall k :: IsLastReached(sections, scrollY, k) ==>
              ScanSections(sections, scrollY, current) == sections[k].id
  {
    if |sections| > 0 {
      var rest := sections[1..];
      var next := if Reached(sections[0], scrollY) then sections[0].id else current;
      ScanFindsLastReached(rest, scrollY, next);
      forall k | IsLastReached(sections, scrollY, k)
        ensures ScanSections(sections, scrollY, current) == sections[k].id
      {
        if k == 0 {
          assert forall j :: 0 <= j < |rest| ==> !Reached(rest[j], scrollY) by {
            forall j | 0 <= j < |rest|
              ensures !Reached(rest[j], scrollY)
            {
              assert rest[j] == sections[j + 1];
            }
          }
        } else {
          assert IsLastReached(rest, scrollY, k - 1) by {
            forall j | k - 1 < j < |rest|
              ensures !Reached(rest[j], scrollY)
            {
              assert rest[j] == sections[j + 1];
            }
          }
        }
      }
    }
  }

  /** When some section is reached, a last reached one exists, so the two cases of
      `ScanFindsLastReached` cover every scroll position. */
  lemma {:induction false} LastReachedExists(sections: seq<Section>, scrollY: int, j: int)
    requires 0 <= j < |sections| && Reached(sections[j], scrollY)
    ensures exists k :: IsLastReached(sections, scrollY, k)
    decreases |sections| - j
  {
    if !IsLastReached(sections, scrollY, j) {
      var j' :| j < j' < |sections| && Reached(sections[j'], scrollY);
      LastReachedExists(sections, scrollY, j');
    }
  }

  /** The `navLinks.forEach` loop: each link loses `active`, then regains it exactly when
      its href is `#` + `current`. */
  function MarkLinks(links: seq<NavLink>, current: string): (r: seq<NavLink>)
    ensures |r| == |links|
    ensures forall i :: 0 <= i < |r| ==> r[i].href == links[i].href
    ensures forall i :: 0 <= i < |r| ==> (r[i].active <==> links[i].href == "#" + current)
  {
    if |links| == 0 then []
    else
      var cleared := links[0].(active := false);
      [if cleared.href == "#" + current then cleared.(active := true) else cleared]
        + MarkLinks(links[1..], current)
  }

  /** `updateActiveNav()`. When no section is reached, `current` is empty and the links
      whose href is exactly "#" are the ones marked. */
  function UpdateActiveNav(p: Page): (q: Page)
    ensures |q.links| == |p.links|
    ensures forall i :: 0 <= i < |q.links| ==> q.links[i].href == p.links[i].href
    ensures (forall j :: 0 <= j < |p.sections| ==> !Reached(p.sections[j], p.scrollY)) ==>
              forall i :: 0 <= i < |q.links| ==> (q.links[i].active <==> q.links[i].href == "#")
    ensures forall k :: IsLastReached(p.sections, p.scrollY, k) ==>
              forall i :: 0 <= i < |q.links| ==> (q.links[i].active <==> q.links[i].href == "#" + p.sections[k].id)
    ensures forall i :: 0 <= i < |q.links| ==>
              (q.links[i].active <==> q.links[i].href == "#" + CurrentSection(p.sections, p.scrollY))
    ensures q == p.(links := q.links)
  {
    ScanFindsLastReached(p.sections, p.scrollY, "");
    p.(links := MarkLinks(p.links, CurrentSection(p.sections, p.scrollY)))
  }

  /** The scroll listener: the window scrolls to `y`, then `updateActiveNav` runs. */
  function Scroll(p: Page, y: int): (q: Page)
    ensures q.scrollY == y
    ensures |q.links| == |p.links|
    ensures forall i :: 0 <= i < |q.links| ==> q.links[i].href == p.links[i].href
    ensures forall i :: 0 <= i < |q.links| ==>
              (q.links[i].active <==> q.links[i].href == "#" + CurrentSection(q.sections, y))
    ensures q == p.(scrollY := y, links := q.links)
  {
    UpdateActiveNav(p.(scrollY := y))
  }
}

=== FILE: catalog.dfy ===
/** The static project catalog (`projectData`): project id to record. Titles, tags and the
    first image of each project follow the site; descriptions are short placeholders. */
module Catalog {

  /** A text authored in both languages. */
  datatype Localized = Localized(tr: string, en: string)

  datatype ProjectRecord = ProjectRecord(
    images: seq<string>,
    title: Localized,
    description: Localized,
    tags: seq<string>
  )

  /** What the lightbox relies on: the record has a first image. */
  predicate HasImage(r: ProjectRecord) {
    |r.images| > 0
  }

  /** The authoring rule for bilingual text: no translation of the record left empty. */
  predicate Translated(r: ProjectRecord) {
    r.title.tr != "" && r.title.en != "" && r.description.tr != "" && r.description.en != ""
  }

  /** Every record has a first image. */
  predicate WellFormed(catalog: map<string, ProjectRecord>) {
    forall id :: id in catalog ==> HasImage(catalog[id])
  }

  /** Every record is translated. */
  predicate FullyTranslated(catalog: map<string, ProjectRecord>) {
    forall id :: id in catalog ==> Translated(catalog[id])
  }

  /** The FRC team #8795 robots, the only project with two images. */
  function FrcRobots(): (r: ProjectRecord)
    ensures HasImage(r) && Translated(r)
  {
    ProjectRecord(
      ["assets/img/frc-robot-2024.jpg", "assets/img/frc-robot-2022.jpg"],
      Localized("FRC Takımı #8795 — Robotlar", "FRC Team #8795 — Robots"),
      Localized("FRC takım kaptanlığı.", "FRC team captaincy."),
      ["ROS/Control", "C++", "CNC", "SolidWorks"])
  }

  /** Mentoring FTC team 25564. */
  function FtcMentor(): (r: ProjectRecord)
    ensures HasImage(r) && Translated(r)
  {
    ProjectRecord(
      ["assets/img/ftc-robot.jpg"],
      Localized("FTC 25564 — Mentor", "FTC 25564 — Mentor"),
      Localized("Yeni takıma mentorluk.", "Mentoring a rookie team."),
      ["Java/C++", "Strategy", "Mentorship"])
  }

  /** The Shell Eco-marathon vehicle. */
  function ShellEco(): (r: ProjectRecord)
    ensures HasImage(r) && Translated(r)
  {
    ProjectRecord(
      ["assets/img/shell-eco-vehicle.jpg"],
      Localized("Shell Eco Marathon Aracı", "Shell Eco Marathon Vehicle"),
      Localized("Enerji verimli araç.", "Energy-efficient vehicle."),
      ["Python", "Image Processing", "SolidWorks", "Arduino"])
  }

  /** The wideband amplifier board with automatic gain control. */
  function PcbAgc(): (r: ProjectRecord)
    ensures HasImage(r) && Translated(r)
  {
    ProjectRecord(
      ["assets/img/pcb-amplifier.jpg"],
      Localized("Geniş Bant Amplifikatör (AGC)", "Wideband Amplifier (AGC)"),
      Localized("AGC'li amplifikatör PCB'si.", "Amplifier PCB with AGC."),
      ["KiCad", "Analog", "PCB"])
  }

  /** The gas monitoring system for mining. */
  function GasMonitoring(): (r: ProjectRecord)
    ensures HasImage(r) && Translated(r)
  {
    ProjectRecord(
      ["assets/img/gas-monitoring-system.jpg"],
      Localized("Madencilik için Gaz İzleme", "Gas Monitoring for Mining"),
      Localized("Madenci güvenliği için gaz izleme.", "Gas monitoring for mining safety."),
      ["Embedded", "Safety", "IoT"])
  }

  /** The vision-based aim assist. */
  function AimAssist(): (r: ProjectRecord)
    ensures HasImage(r) && Translated(r)
  {
    ProjectRecord(
      ["assets/img/aim-assist-project.jpg"],
      Localized("Nişan Yardım Sistemi (Görüntü İşleme)", "Aim Assist (Vision)"),
      Localized("Hedef tespit eden nişan yardımı.", "Target-locking aim assist."),
      ["Python", "CV", "ML"])
  }

  /** The `projectData` table. */
  function ProjectData(): (catalog: map<string, ProjectRecord>)
    ensures WellFormed(catalog) && FullyTranslated(catalog)
    ensures catalog.Keys == {"frc-robots", "ftc-mentor", "shell-eco", "pcb-agc", "gas-monitoring", "aim-assist"}
  {
    map[
      "frc-robots" := FrcRobots(),
      "ftc-mentor" := FtcMentor(),
      "shell-eco" := ShellEco(),
      "pcb-agc" := PcbAgc(),
      "gas-monitoring" := GasMonitoring(),
      "aim-assist" := AimAssist()
    ]
  }
}

=== FILE: dom.dfy ===
/** The page's document, abstracted as plain data. Every entity the script touches is
    a field of one immutable `Page` record; each event handler becomes a pure function
    from `Page` to `Page`. */
module Dom {
  import opened Storage

  /** An element matched by `[data-tr][data-en]`: both variant attributes exist (either
      may be empty) and `text` is its current `textContent`. */
  datatype BilingualNode = BilingualNode(tr: string, en: string, text: string)

  /** The `#lightbox` overlay and its children. */
  datatype LightboxView = LightboxView(
    active: bool,          // class `active` on #lightbox
    ariaHidden: string,    // attribute `aria-hidden`
    imgSrc: string,        // #lightbox-img src
    imgAlt: string,        // #lightbox-img alt
    title: string,         // #lightbox-title textContent
    description: string,   // #lightbox-description textContent
    tags: seq<string>      // the <li> texts inside #lightbox-tags, in order
  )

  /** `#nav-list` (class `open`) together with the `aria-expanded` attribute of `#nav-toggle`. */
  datatype NavState = NavState(open: bool, ariaExpanded: string)

  /** A `section[id]`: its id attribute and its `offsetTop` in whole pixels. */
  datatype Section = Section(id: string, offsetTop: int)

  /** A `.nav-list a[href^="#"]` link: its href and whether it has class `active`. */
  datatype NavLink = NavLink(href: string, active: bool)

  datatype Page = Page(
    store: Store,                  // localStorage
    currentLang: string,           // the script's `currentLang`
    theme: string,                 // the script's `theme`
    nodes: seq<BilingualNode>,     // every `[data-tr][data-en]` element, in document order
    headings: seq<string>,         // texts of every `section h2`, in document order
    title: string,                 // document.title
    rootLang: string,              // document.documentElement.lang
    toggleLabel: string,           // text of the <span> inside #lang-toggle
    rootClasses: set<string>,      // document.documentElement.classList
    lightbox: LightboxView,
    bodyOverflow: string,          // document.body.style.overflow
    nav: NavState,
    sections: seq<Section>,        // every `section[id]`, in document order
    scrollY: int,                  // window.scrollY
    links: seq<NavLink>            // every `.nav-list a[href^="#"]`, in document order
  )
}

=== FILE: language.dfy ===
/** The language system: the stored preference, the toggle, and `applyLanguage`, which
    rewrites every bilingual node, the document title, the section headings (by position),
    the root `lang` attribute, the stored preference and the toggle's label. */
module LanguageSystem {
  import opened Storage
  import opened Dom

  const LanguageKey := "language"

  /** The two values `applyLanguage` can render; any other value would index the heading
      table with an unknown key. */
  predicate IsLanguage(lang: string) {
    lang == "tr" || lang == "en"
  }

  /** The script's starting `currentLang`: the stored preference, or "tr" when it is absent
      or empty. */
  function InitialLanguage(store: Store): (lang: string)
    ensures lang != ""
    ensures LanguageKey in store && store[LanguageKey] != "" ==> lang == store[LanguageKey]
    ensures LanguageKey !in store || store[LanguageKey] == "" ==> lang == "tr"
  {
    GetOr(store, LanguageKey, "tr")
  }

  /** The toggle's choice of the next language: "en" after "tr", and "tr" after anything else. */
  function NextLanguage(lang: string): (next: string)
    ensures IsLanguage(next)
    ensures next != lang
    ensures !IsLanguage(lang) ==> next == "tr"
  {
    if lang == "tr" then "en" else "tr"
  }

  /** On the two rendered languages the toggle is an involution. */
  lemma NextLanguageInvolution(lang: string)
    requires IsLanguage(lang)
    ensures NextLanguage(NextLanguage(lang)) == lang
  {
  }

  /** The text a node carries for `lang`: its `data-tr` or `data-en` attribute. */
  function Variant(n: BilingualNode, lang: string): string
    requires IsLanguage(lang)
  {
    if lang == "tr" then n.tr else n.en
  }

  /** The document title for each language. */
  function Title(lang: string): (t: string)
    requires IsLanguage(lang)
    ensures t != ""
  {
    if lang == "tr" then "Ömer Faruk Kuşçu — Portföy" else "Ömer Faruk Kuşçu — Portfolio"
  }

  /** The heading table: the i-th entry is written into the i-th `section h2`. */
  function Headers(lang: string): (table: seq<string>)
    requires IsLanguage(lang)
    ensures |table| == 5
  {
    if lang == "tr" then ["Hakkımda", "Projeler", "Yetenekler", "Ödüller & Başarılar", "İletişime Geçin"]
    else ["About Me", "Projects", "Skills", "Awards & Achievements", "Get In Touch"]
  }

  /** The upper-case short code of a language. */
  function ShortCode(lang: string): string
    requires IsLanguage(lang)
  {
    if lang == "tr" then "TR" else "EN"
  }

  /** The label of the language toggle while `lang` is shown. */
  function ToggleLabel(lang: string): (l: string)
    requires IsLanguage(lang)
    ensures l == ShortCode(NextLanguage(lang))
    ensures l != ShortCode(lang)
  {
    if lang == "tr" then "EN" else "TR"
  }

  /** The `forEach` over the bilingual nodes: a node whose variant for `lang` is non-empty
      shows that variant; a node whose variant is empty keeps its text. */
  function RenderNodes(nodes: seq<BilingualNode>, lang: string): (r: seq<BilingualNode>)
    requires IsLanguage(lang)
    ensures |r| == |nodes|
    ensures forall i :: 0 <= i < |r| ==> r[i].tr == nodes[i].tr && r[i].en == nodes[i].en
    ensures forall i :: 0 <= i < |r| && Variant(nodes[i], lang) != "" ==> r[i].text == Variant(nodes[i], lang)
    ensures forall i :: 0 <= i < |r| && Variant(nodes[i], lang) == "" ==> r[i] == nodes[i]
  {
    if |nodes| == 0 then []
    else
      var n := nodes[0];
      var text := Variant(n, lang);
      [if text != "" then n.(text := text) else n] + RenderNodes(nodes[1..], lang)
  }

  /** The `forEach` over the heading table: entry i overwrites heading i when heading i
      exists; headings beyond the table keep their text, and missing headings are skipped. */
  function OverwriteHeadings(h2s: seq<string>, table: seq<string>): (r: seq<string>)
    ensures |r| == |h2s|
    ensures forall i :: 0 <= i < |r| && i < |table| ==> r[i] == table[i]
    ensures forall i :: |table| <= i < |r| ==> r[i] == h2s[i]
    decreases |table|
  {
    if |table| == 0 || |h2s| == 0 then h2s
    else [table[0]] + OverwriteHeadings(h2s[1..], table[1..])
  }

  /** The rendered document shows `lang`: title, root `lang`, toggle label, every node
      that has text in `lang`, and the headings the table covers. */
  predicate Displays(p: Page, lang: string)
    requires IsLanguage(lang)
  {
    && p.title == Title(lang)
    && p.rootLang == lang
    && p.toggleLabel == ToggleLabel(lang)
    && (forall i :: 0 <= i < |p.nodes| && Variant(p.nodes[i], lang) != "" ==> p.nodes[i].text == Variant(p.nodes[i], lang))
    && (forall i :: 0 <= i < |p.headings| && i < |Headers(lang)| ==> p.headings[i] == Headers(lang)[i])
  }

  /** Everything `applyLanguage(lang)` establishes about a page: the document shows `lang`
      and the store holds it. */
  predicate Shows(p: Page, lang: string)
    requires IsLanguage(lang)
  {
    && Displays(p, lang)
    && LanguageKey in p.store && p.store[LanguageKey] == lang
  }

  /** What rendering `lang` leaves alone: the node and heading counts, both variant
      attributes of every node, the text of every node with no text in `lang`, and every
      heading past the end of the table. */
  predicate RenderFrame(p: Page, q: Page, lang: string)
    requires IsLanguage(lang)
  {
    && |q.nodes| == |p.nodes|
    && (forall i :: 0 <= i < |p.nodes| ==> q.nodes[i].tr == p.nodes[i].tr && q.nodes[i].en == p.nodes[i].en)
    && (forall i :: 0 <= i < |p.nodes| && Variant(p.nodes[i], lang) == "" ==> q.nodes[i] == p.nodes[i])
    && |q.headings| == |p.headings|
    && (forall i :: |Headers(lang)| <= i < |p.headings| ==> q.headings[i] == p.headings[i])
  }

  /** `applyLanguage(lang)`. It does not touch the script's `currentLang`. */
  function ApplyLanguage(p: Page, lang: string): (q: Page)
    requires IsLanguage(lang)
    ensures Shows(q, lang)
    ensures RenderFrame(p, q, lang)
    ensures q.store == p.store[LanguageKey := lang]
    ensures q == p.(store := q.store, nodes := q.nodes, headings := q.headings,
                    title := q.title, rootLang := q.rootLang, toggleLabel := q.toggleLabel)
  {
    p.(nodes := RenderNodes(p.nodes, lang),
       title := Title(lang),
       headings := OverwriteHeadings(p.headings, Headers(lang)),
       rootLang := lang,
       store := p.store[LanguageKey := lang],
       toggleLabel := ToggleLabel(lang))
  }

  /** A page already shows `lang` exactly when applying `lang` changes nothing. */
  lemma ShowsIffFixpoint(p: Page, lang: string)
    requires IsLanguage(lang)
    ensures Shows(p, lang) <==> ApplyLanguage(p, lang) == p
  {
    var q := ApplyLanguage(p, lang);
    if Shows(p, lang) {
      assert q.nodes == p.nodes by {
        forall i | 0 <= i < |p.nodes|
          ensures q.nodes[i] == p.nodes[i]
        {
          if Variant(p.nodes[i], lang) != "" {
            assert q.nodes[i].text == p.nodes[i].text;
          }
        }
      }
      assert q.headings == p.headings;
      assert p.store[LanguageKey := lang] == p.store;
    }
  }

  /** `applyLanguage` is idempotent. */
  lemma ApplyLanguageIdempotent(p: Page, lang: string)
    requires IsLanguage(lang)
    ensures ApplyLanguage(ApplyLanguage(p, lang), lang) == ApplyLanguage(p, lang)
  {
    ShowsIffFixpoint(ApplyLanguage(p, lang), lang);
  }

  /** Rendering the nodes in `a` and then in `b` is rendering them in `b`, when no node has
      text in `a` but none in `b`. */
  lemma RenderNodesLastWins(nodes: seq<BilingualNode>, a: string, b: string)
    requires IsLanguage(a) && IsLanguage(b)
    requires forall i :: 0 <= i < |nodes| ==> Variant(nodes[i], b) != "" || Variant(nodes[i], a) == ""
    ensures RenderNodes(RenderNodes(nodes, a), b) == RenderNodes(nodes, b)
  {
    var q := RenderNodes(RenderNodes(nodes, a), b);
    var r := RenderNodes(nodes, b);
    forall i | 0 <= i < |nodes|
      ensures q[i] == r[i]
    {
      assert Variant(RenderNodes(nodes, a)[i], b) == Variant(nodes[i], b);
    }
  }

  /** A second heading table at least as long as the first overwrites all of its work. */
  lemma OverwriteHeadingsLastWins(h2s: seq<string>, first: seq<string>, second: seq<string>)
    requires |first| <= |second|
    ensures OverwriteHeadings(OverwriteHeadings(h2s, first), second) == OverwriteHeadings(h2s, second)
  {
    var q := OverwriteHeadings(OverwriteHeadings(h2s, first), second);
    var r := OverwriteHeadings(h2s, second);
    assert forall i :: 0 <= i < |h2s| ==> q[i] == r[i];
  }

  /** Applying `a` and then `b` is the same as applying `b` alone, provided no node has an
      empty `b` variant but a non-empty `a` variant (such a node would keep the `a` text). */
  lemma ApplyLanguageLastWins(p: Page, a: string, b: string)
    requires IsLanguage(a) && IsLanguage(b)
    requires forall i :: 0 <= i < |p.nodes| ==> Variant(p.nodes[i], b) != "" || Variant(p.nodes[i], a) == ""
    ensures ApplyLanguage(ApplyLanguage(p, a), b) == ApplyLanguage(p, b)
  {
    RenderNodesLastWins(p.nodes, a, b);
    OverwriteHeadingsLastWins(p.headings, Headers(a), Headers(b));
    assert p.store[LanguageKey := a][LanguageKey := b] == p.store[LanguageKey := b];
  }

  /** The language toggle handler: flip `currentLang`, then apply it. */
  function ToggleLanguage(p: Page): (q: Page)
    ensures q.currentLang == NextLanguage(p.currentLang)
    ensures q.currentLang != p.currentLang
    ensures Shows(q, q.currentLang)
    ensures RenderFrame(p, q, q.currentLang)
    ensures q.store == p.store[LanguageKey := q.currentLang]
    ensures InitialLanguage(q.store) == q.currentLang
    ensures q == p.(currentLang := q.currentLang, store := q.store, nodes := q.nodes, headings := q.headings,
                    title := q.title, rootLang := q.rootLang, toggleLabel := q.toggleLabel)
  {
    var next := NextLanguage(p.currentLang);
    ApplyLanguage(p.(currentLang := next), next)
  }

  /** Two toggles restore a page that shows its current language, provided every node that
      has text in the other language also has text in the current one. */
  lemma LanguageToggleRoundTrip(p: Page)
    requires IsLanguage(p.currentLang)
    requires Shows(p, p.currentLang)
    requires forall i :: 0 <= i < |p.nodes| ==>
               Variant(p.nodes[i], p.currentLang) != "" || Variant(p.nodes[i], NextLanguage(p.currentLang)) == ""
    ensures ToggleLanguage(ToggleLanguage(p)) == p
  {
    var c := p.currentLang;
    var o := NextLanguage(c);
    var p1 := p.(currentLang := o);
    NextLanguageInvolution(c);
    ApplyLanguageLastWins(p1, o, c);
    assert ApplyLanguage(p1, o).(currentLang := c) == ApplyLanguage(p1.(currentLang := c), o);
    assert p1.(currentLang := c) == p;
    assert ApplyLanguage(ApplyLanguage(p, o), c) == ApplyLanguage(p, c) by {
      ApplyLanguageLastWins(p, o, c);
    }
    ShowsIffFixpoint(p, c);
  }

  /** Without that proviso the round trip fails: a node whose Turkish text is missing keeps
      the English text after toggling back to Turkish. */
  lemma RoundTripNeedsBothVariants(p: Page)
    requires p.currentLang == "tr" && Shows(p, "tr")
    requires |p.nodes| > 0 && p.nodes[0] == BilingualNode("", "About", "Hakkında")
    ensures ToggleLanguage(ToggleLanguage(p)).nodes[0].text == "About"
    ensures ToggleLanguage(ToggleLanguage(p)) != p
  {
    var q := ToggleLanguage(p);
    assert Variant(p.nodes[0], "en") == "About";
    assert q.nodes[0].text == "About";
    var r := ToggleLanguage(q);
    assert Variant(q.nodes[0], "tr") == "";
    assert r.nodes[0].text == "About";
  }
}

=== FILE: lightbox.dfy ===
/** The lightbox: `openLightbox`, `closeLightbox` and the Escape-key handler. The overlay
    is open exactly while it carries class `active`. */
module LightboxSystem {
  import opened Dom
  import opened Catalog
  import opened LanguageSystem

  /** The text of a localized field in `lang` (`data.title[currentLang]`). */
  function Pick(text: Localized, lang: string): string
    requires IsLanguage(lang)
  {
    if lang == "tr" then text.tr else text.en
  }

  /** The tag `forEach`: append one `<li>` per tag, in order, to the list `items`. */
  function AppendTags(items: seq<string>, tags: seq<string>): (r: seq<string>)
    ensures r == items + tags
    decreases |tags|
  {
    if |tags| == 0 then items
    else AppendTags(items + [tags[0]], tags[1..])
  }

  /** The overlay's flags agree with the body's scroll lock: open, visible to assistive
      technology and scroll-locked, or closed, hidden and scrollable. */
  predicate FlagsInStep(p: Page) {
    || (p.lightbox.active && p.lightbox.ariaHidden == "false" && p.bodyOverflow == "hidden")
    || (!p.lightbox.active && p.lightbox.ariaHidden == "true" && p.bodyOverflow == "")
  }

  /** `openLightbox(id)`. The language is read afresh from the store, not from the script's
      `currentLang`. An id the catalog lacks leaves the page as it is. */
  function OpenLightbox(p: Page, catalog: map<string, ProjectRecord>, id: string): (q: Page)
    requires WellFormed(catalog)
    requires id in catalog ==> IsLanguage(InitialLanguage(p.store))
    ensures id !in catalog ==> q == p
    ensures id in catalog ==>
              var data := catalog[id];
              var lang := InitialLanguage(p.store);
              && q.lightbox.imgSrc == data.images[0]
              && q.lightbox.imgAlt == Pick(data.title, lang)
              && q.lightbox.title == Pick(data.title, lang)
              && q.lightbox.description == Pick(data.description, lang)
              && q.lightbox.tags == data.tags
              && q.lightbox.active && q.lightbox.ariaHidden == "false" && q.bodyOverflow == "hidden"
    ensures FlagsInStep(q) <== id in catalog || FlagsInStep(p)
    ensures q == p.(lightbox := q.lightbox, bodyOverflow := q.bodyOverflow)
  {
    if id !in catalog then p
    else
      var data := catalog[id];
      var lang := InitialLanguage(p.store);
      var title := Pick(data.title, lang);
      var cleared: seq<string> := [];
      p.(lightbox := LightboxView(
           active := true,
           ariaHidden := "false",
           imgSrc := data.images[0],
           imgAlt := title,
           title := title,
           description := Pick(data.description, lang),
           tags := AppendTags(cleared, data.tags)),
         bodyOverflow := "hidden")
  }

  /** `closeLightbox()`: clears the flags and the scroll lock; the content stays. */
  function CloseLightbox(p: Page): (q: Page)
    ensures !q.lightbox.active && q.lightbox.ariaHidden == "true" && q.bodyOverflow == ""
    ensures FlagsInStep(q)
    ensures q.lightbox.(active := p.lightbox.active, ariaHidden := p.lightbox.ariaHidden) == p.lightbox
    ensures q == p.(lightbox := q.lightbox, bodyOverflow := q.bodyOverflow)
  {
    p.(lightbox := p.lightbox.(active := false, ariaHidden := "true"), bodyOverflow := "")
  }

  /** The `keydown` handler: Escape closes an open lightbox; every other key, and Escape on
      a closed lightbox, changes nothing. */
  function KeyDown(p: Page, key: string): (q: Page)
    ensures key == "Escape" && p.lightbox.active ==> q == CloseLightbox(p)
    ensures key != "Escape" || !p.lightbox.active ==> q == p
    ensures !q.lightbox.active || q == p
  {
    if key == "Escape" && p.lightbox.active then CloseLightbox(p) else p
  }

  /** Opening a project after another leaves no trace of the first: the tag list is rebuilt,
      not appended to. */
  lemma OpenReplaces(p: Page, catalog: map<string, ProjectRecord>, a: string, b: string)
    requires WellFormed(catalog)
    requires IsLanguage(InitialLanguage(p.store))
    requires b in catalog
    ensures OpenLightbox(OpenLightbox(p, catalog, a), catalog, b) == OpenLightbox(p, catalog, b)
    ensures OpenLightbox(OpenLightbox(p, catalog, a), catalog, b).lightbox.tags == catalog[b].tags
  {
  }

  /** `closeLightbox` is idempotent. */
  lemma CloseIdempotent(p: Page)
    ensures CloseLightbox(CloseLightbox(p)) == CloseLightbox(p)
  {
  }

  /** Opening and then closing leaves the same flags and the same scroll lock as closing
      alone; only the overlay's content remembers the opened project. */
  lemma CloseAfterOpen(p: Page, catalog: map<string, ProjectRecord>, id: string)
    requires WellFormed(catalog)
    requires id in catalog ==> IsLanguage(InitialLanguage(p.store))
    ensures var q := CloseLightbox(OpenLightbox(p, catalog, id));
            q.(lightbox := q.lightbox.(imgSrc := p.lightbox.imgSrc, imgAlt := p.lightbox.imgAlt,
                                       title := p.lightbox.title, description := p.lightbox.description,
                                       tags := p.lightbox.tags))
            == CloseLightbox(p)
  {
  }
}

=== FILE: nav.dfy ===
/** The mobile navigation: the `#nav-toggle` click handler and the `#nav-list` click
    handler that closes the menu when a link is clicked. */
module MobileNav {
  import opened Dom

  /** The menu's `open` class and the toggle's `aria-expanded` attribute agree. */
  predicate InStep(nav: NavState) {
    nav.ariaExpanded == (if nav.open then "true" else "false")
  }

  /** The `#nav-toggle` click handler. */
  function ToggleNav(p: Page): (q: Page)
    ensures q.nav.open == !p.nav.open
    ensures InStep(q.nav)
    ensures q == p.(nav := q.nav)
  {
    if p.nav.open then p.(nav := NavState(false, "false"))
    else p.(nav := NavState(true, "true"))
  }

  /** The `#nav-list` click handler, given the clicked element's `tagName`. */
  function NavListClick(p: Page, tagName: string): (q: Page)
    ensures tagName == "A" ==> !q.nav.open && q.nav.ariaExpanded == "false"
    ensures tagName != "A" ==> q == p
    ensures InStep(p.nav) ==> InStep(q.nav)
    ensures q == p.(nav := q.nav)
  {
    if tagName == "A" then p.(nav := NavState(false, "false")) else p
  }

  /** Two toggles restore a menu whose flags are in step. */
  lemma ToggleNavInvolution(p: Page)
    requires InStep(p.nav)
    ensures ToggleNav(ToggleNav(p)) == p
  {
  }

  /** Clicking a link closes the menu, whatever state it was in; a second click changes nothing. */
  lemma LinkClickIdempotent(p: Page)
    ensures NavListClick(NavListClick(p, "A"), "A") == NavListClick(p, "A")
  {
  }
}

=== FILE: page.dfy ===
/** The page as a whole: script start-up, `DOMContentLoaded`, and one event dispatcher
    over every handler of the view state. Its invariant `Consistent` says that the stored
    preferences, the script's variables and the rendered document never disagree. */
module PageEvents {
  import opened Dom
  import opened Catalog
  import opened LanguageSystem
  import opened ThemeSystem
  import opened LightboxSystem
  import opened MobileNav
  import opened ActiveNav

  /** The user and browser events the handlers listen to, plus a write to the shared
      store by another tab of the same site: `localStorage` is shared between tabs, and
      the script has no `storage` listener, so such a write reaches this tab's store and
      nothing else. */
  datatype Event =
    | LangToggleClicked
    | ThemeToggleClicked
    | NavToggleClicked
    | NavListClicked(tagName: string)
    | ViewButtonClicked(projectId: string)
    | CloseButtonClicked
    | BackdropClicked
    | KeyPressed(key: string)
    | Scrolled(y: int)
    | OtherTabStored(storeKey: string, value: string)

  /** Another tab runs the same script, which only ever stores a renderable language
      under `language` and one of the two themes under `theme`. */
  predicate Possible(e: Event) {
    e.OtherTabStored? ==>
      || (e.storeKey == LanguageKey && IsLanguage(e.value))
      || (e.storeKey == ThemeKey && (e.value == "dark" || e.value == "light"))
  }

  /** Script evaluation on the parsed document: read both preferences into the script's
      variables, then run `updateActiveNav` once. */
  function Boot(parsed: Page): (p: Page)
    ensures p.currentLang == InitialLanguage(parsed.store)
    ensures p.theme == InitialTheme(parsed.store)
    ensures |p.links| == |parsed.links|
    ensures forall i :: 0 <= i < |p.links| ==> p.links[i].href == parsed.links[i].href
    ensures forall i :: 0 <= i < |p.links| ==>
              (p.links[i].active <==> p.links[i].href == "#" + CurrentSection(p.sections, p.scrollY))
    ensures p == parsed.(currentLang := p.currentLang, theme := p.theme, links := p.links)
  {
    UpdateActiveNav(parsed.(currentLang := InitialLanguage(parsed.store), theme := InitialTheme(parsed.store)))
  }

  /** The `DOMContentLoaded` handler's part in the view state: apply the theme, then the
      language. It stores the language but never the theme. */
  function Load(p: Page): (q: Page)
    requires IsLanguage(p.currentLang)
    ensures Shows(q, p.currentLang)
    ensures RenderFrame(p, q, p.currentLang)
    ensures q.store == p.store[LanguageKey := p.currentLang]
    ensures LightClass in q.rootClasses <==> p.theme == "light"
    ensures q.rootClasses - {LightClass} == p.rootClasses - {LightClass}
    ensures q == p.(store := q.store, nodes := q.nodes, headings := q.headings, title := q.title,
                    rootLang := q.rootLang, toggleLabel := q.toggleLabel, rootClasses := q.rootClasses)
  {
    ApplyLanguage(ApplyTheme(p, p.theme), p.currentLang)
  }

  /** The page once loaded: script evaluation, then `DOMContentLoaded`. The stored language
      must be one the page can render. */
  function StartUp(parsed: Page): (q: Page)
    requires IsLanguage(InitialLanguage(parsed.store))
    ensures q.currentLang == InitialLanguage(parsed.store) && q.theme == InitialTheme(parsed.store)
    ensures Shows(q, q.currentLang)
    ensures LightClass in q.rootClasses <==> q.theme == "light"
    ensures InitialTheme(q.store) == q.theme
    ensures forall i :: 0 <= i < |q.links| ==>
              (q.links[i].active <==> q.links[i].href == "#" + CurrentSection(q.sections, q.scrollY))
    ensures RenderFrame(parsed, q, q.currentLang)
    ensures q.store == parsed.store[LanguageKey := q.currentLang]
    ensures q.rootClasses - {LightClass} == parsed.rootClasses - {LightClass}
    ensures q.sections == parsed.sections && q.scrollY == parsed.scrollY
    ensures |q.links| == |parsed.links|
    ensures forall i :: 0 <= i < |q.links| ==> q.links[i].href == parsed.links[i].href
    ensures q.lightbox == parsed.lightbox && q.bodyOverflow == parsed.bodyOverflow && q.nav == parsed.nav
  {
    var b := Boot(parsed);
    var q := Load(b);
    assert InitialTheme(q.store) == InitialTheme(b.store);
    q
  }

  /** Dispatch one event to its handler; the view buttons look their project up in
      `catalog`, which on the site is `ProjectData()`. The lightbox reads its language from
      the store, which must therefore hold a renderable language; every event keeps it so. */
  function Step(catalog: map<string, ProjectRecord>, p: Page, e: Event): (q: Page)
    requires WellFormed(catalog)
    requires IsLanguage(InitialLanguage(p.store))
    requires Possible(e)
    ensures IsLanguage(InitialLanguage(q.store))
  {
    match e
    case LangToggleClicked => ToggleLanguage(p)
    case ThemeToggleClicked =>
      var q := ToggleTheme(p);
      assert InitialLanguage(q.store) == InitialLanguage(p.store);
      q
    case NavToggleClicked => ToggleNav(p)
    case NavListClicked(tagName) => NavListClick(p, tagName)
    case ViewButtonClicked(id) => OpenLightbox(p, catalog, id)
    case CloseButtonClicked => CloseLightbox(p)
    case BackdropClicked => CloseLightbox(p)
    case KeyPressed(key) => KeyDown(p, key)
    case Scrolled(y) => Scroll(p, y)
    case OtherTabStored(key, value) =>
      var q := p.(store := p.store[key := value]);
      assert key != LanguageKey ==> InitialLanguage(q.store) == InitialLanguage(p.store);
      q
  }

  /** Each handler touches only its own part of the page: no event moves a section; only
      scrolling changes the scroll position and the highlighted links; only the language
      click re-renders text; only the theme click changes the theme; only the two toggles
      and another tab write to the store; only the view button opens the lightbox. */
  lemma StepTouchesOnlyItsPart(catalog: map<string, ProjectRecord>, p: Page, e: Event)
    requires WellFormed(catalog)
    requires IsLanguage(InitialLanguage(p.store))
    requires Possible(e)
    ensures var q := Step(catalog, p, e);
            && q.sections == p.sections
            && (!e.Scrolled? ==> q.scrollY == p.scrollY && q.links == p.links)
            && (!e.LangToggleClicked? ==>
                  && q.currentLang == p.currentLang && q.nodes == p.nodes && q.headings == p.headings
                  && q.title == p.title && q.rootLang == p.rootLang && q.toggleLabel == p.toggleLabel)
            && (!e.ThemeToggleClicked? ==> q.theme == p.theme && q.rootClasses == p.rootClasses)
            && (!e.LangToggleClicked? && !e.ThemeToggleClicked? && !e.OtherTabStored? ==> q.store == p.store)
            && (q.lightbox.active && !p.lightbox.active ==> e.ViewButtonClicked?)
  {
  }

  /** The view-state invariant: the script's variables, the rendered document, the root
      class, the lightbox flags, the menu flags and the highlighted links agree, and the
      store holds a renderable language. */
  predicate Consistent(p: Page) {
    && IsLanguage(p.currentLang)
    && IsLanguage(InitialLanguage(p.store))
    && Displays(p, p.currentLang)
    && (LightClass in p.rootClasses <==> p.theme == "light")
    && FlagsInStep(p)
    && MobileNav.InStep(p.nav)
    && forall i :: 0 <= i < |p.links| ==>
         (p.links[i].active <==> p.links[i].href == "#" + CurrentSection(p.sections, p.scrollY))
  }

  /** The store holds this tab's language under `language`, and its theme reads back as
      this tab's theme (an absent or empty `theme` reads as "dark"). Every handler of this
      tab keeps this; a write from another tab can break it. */
  predicate StoreAgrees(p: Page) {
    && LanguageKey in p.store && p.store[LanguageKey] == p.currentLang
    && InitialTheme(p.store) == p.theme
  }

  /** A page whose markup starts with the lightbox closed and the menu's flags in step is
      consistent once loaded, and its store agrees with it, provided the stored language is
      absent, empty, "tr" or "en". */
  lemma StartUpConsistent(parsed: Page)
    requires IsLanguage(InitialLanguage(parsed.store))
    requires FlagsInStep(parsed) && MobileNav.InStep(parsed.nav)
    ensures Consistent(StartUp(parsed)) && StoreAgrees(StartUp(parsed))
  {
    var q := StartUp(parsed);
    assert InitialLanguage(q.store) == q.currentLang;
  }

  /** With an empty store the page loads in Turkish with the dark theme. */
  lemma DefaultsOnFirstLoad(parsed: Page)
    requires parsed.store == map[]
    ensures var q := StartUp(parsed);
            && q.currentLang == "tr" && q.theme == "dark"
            && LightClass !in q.rootClasses
            && q.title == Title("tr") && q.rootLang == "tr" && q.toggleLabel == "EN"
            && q.store == map[LanguageKey := "tr"]
  {
    var b := Boot(parsed);
    assert Load(b).store == b.store[LanguageKey := "tr"];
  }

  /** The language toggle rewrites the store, the script's language and the document together. */
  lemma LanguageTogglePreserves(p: Page)
    requires Consistent(p)
    ensures Consistent(ToggleLanguage(p))
    ensures StoreAgrees(p) ==> StoreAgrees(ToggleLanguage(p))
  {
    var q := ToggleLanguage(p);
    assert q.store == p.store[LanguageKey := q.currentLang];
    assert InitialTheme(q.store) == InitialTheme(p.store);
  }

  /** The theme toggle rewrites the store, the script's theme and the root class together. */
  lemma ThemeTogglePreserves(p: Page)
    requires Consistent(p)
    ensures Consistent(ToggleTheme(p))
    ensures StoreAgrees(p) ==> StoreAgrees(ToggleTheme(p))
  {
    var q := ToggleTheme(p);
    assert q.store == p.store[ThemeKey := q.theme];
    assert InitialLanguage(q.store) == InitialLanguage(p.store);
    assert LanguageKey in p.store ==> LanguageKey in q.store && q.store[LanguageKey] == p.store[LanguageKey];
  }

  /** Handlers that touch neither the store, the script's variables nor the rendered text. */
  lemma ViewOnlyPreserves(p: Page, q: Page)
    requires Consistent(p)
    requires q.store == p.store && q.currentLang == p.currentLang && q.theme == p.theme
    requires q.nodes == p.nodes && q.headings == p.headings && q.title == p.title
    requires q.rootLang == p.rootLang && q.toggleLabel == p.toggleLabel && q.rootClasses == p.rootClasses
    requires FlagsInStep(q) && MobileNav.InStep(q.nav)
    requires q.sections == p.sections && q.scrollY == p.scrollY && q.links == p.links
    ensures Consistent(q)
    ensures StoreAgrees(p) ==> StoreAgrees(q)
  {
  }

  /** Both menu handlers keep the page consistent. */
  lemma NavHandlersPreserve(p: Page, tagName: string)
    requires Consistent(p)
    ensures Consistent(ToggleNav(p)) && Consistent(NavListClick(p, tagName))
    ensures StoreAgrees(p) ==> StoreAgrees(ToggleNav(p)) && StoreAgrees(NavListClick(p, tagName))
  {
    ViewOnlyPreserves(p, ToggleNav(p));
    ViewOnlyPreserves(p, NavListClick(p, tagName));
  }

  /** Opening, closing and Escape keep the page consistent. */
  lemma LightboxHandlersPreserve(catalog: map<string, ProjectRecord>, p: Page, id: string, key: string)
    requires WellFormed(catalog)
    requires Consistent(p)
    ensures Consistent(OpenLightbox(p, catalog, id))
    ensures Consistent(CloseLightbox(p)) && Consistent(KeyDown(p, key))
    ensures StoreAgrees(p) ==>
              && StoreAgrees(OpenLightbox(p, catalog, id))
              && StoreAgrees(CloseLightbox(p)) && StoreAgrees(KeyDown(p, key))
  {
    ViewOnlyPreserves(p, OpenLightbox(p, catalog, id));
    ViewOnlyPreserves(p, CloseLightbox(p));
    ViewOnlyPreserves(p, KeyDown(p, key));
  }

  /** Scrolling keeps the page consistent. */
  lemma ScrollPreserves(p: Page, y: int)
    requires Consistent(p)
    ensures Consistent(Scroll(p, y))
    ensures StoreAgrees(p) ==> StoreAgrees(Scroll(p, y))
  {
    var q := Scroll(p, y);
    assert q == p.(scrollY := y, links := q.links);
  }

  /** A write from another tab changes only the store, which keeps a renderable language. */
  lemma OtherTabPreserves(catalog: map<string, ProjectRecord>, p: Page, key: string, value: string)
    requires WellFormed(catalog)
    requires Consistent(p)
    requires Possible(OtherTabStored(key, value))
    ensures Consistent(Step(catalog, p, OtherTabStored(key, value)))
  {
  }

  /** Every event keeps the page consistent; every event of this tab also keeps the store
      in agreement. */
  lemma StepPreservesConsistent(catalog: map<string, ProjectRecord>, p: Page, e: Event)
    requires WellFormed(catalog)
    requires Consistent(p)
    requires Possible(e)
    ensures Consistent(Step(catalog, p, e))
    ensures StoreAgrees(p) && !e.OtherTabStored? ==> StoreAgrees(Step(catalog, p, e))
  {
    match e
    case LangToggleClicked => LanguageTogglePreserves(p);
    case ThemeToggleClicked => ThemeTogglePreserves(p);
    case NavToggleClicked => NavHandlersPreserve(p, "");
    case NavListClicked(tagName) => NavHandlersPreserve(p, tagName);
    case ViewButtonClicked(id) => LightboxHandlersPreserve(catalog, p, id, "");
    case CloseButtonClicked => LightboxHandlersPreserve(catalog, p, "", "");
    case BackdropClicked => LightboxHandlersPreserve(catalog, p, "", "");
    case KeyPressed(key) => LightboxHandlersPreserve(catalog, p, "", key);
    case Scrolled(y) => ScrollPreserves(p, y);
    case OtherTabStored(key, value) => OtherTabPreserves(catalog, p, key, value);
  }

  /** Any sequence of events, dispatched in order. The page stays consistent; the store
      stays in agreement as long as no other tab writes to it. */
  function Run(catalog: map<string, ProjectRecord>, p: Page, events: seq<Event>): (q: Page)
    requires WellFormed(catalog)
    requires Consistent(p)
    requires forall i :: 0 <= i < |events| ==> Possible(events[i])
    ensures Consistent(q)
    ensures StoreAgrees(p) && (forall i :: 0 <= i < |events| ==> !events[i].OtherTabStored?) ==> StoreAgrees(q)
    decreases |events|
  {
    if |events| == 0 then p
    else
      var e := events[0];
      var rest := events[1..];
      assert forall i :: 0 <= i < |rest| ==> rest[i] == events[i + 1];
      StepPreservesConsistent(catalog, p, e);
      Run(catalog, Step(catalog, p, e), rest)
  }

  /** While the store agrees with the page, the lightbox shows a project in the language
      the page shows, although it reads the language from the store rather than from
      `currentLang`. */
  lemma LightboxSpeaksPageLanguage(catalog: map<string, ProjectRecord>, p: Page, id: string)
    requires WellFormed(catalog) && FullyTranslated(catalog)
    requires Consistent(p) && StoreAgrees(p)
    requires id in catalog
    ensures var q := Step(catalog, p, ViewButtonClicked(id));
            && q.lightbox.title == Pick(catalog[id].title, p.currentLang)
            && q.lightbox.description == Pick(catalog[id].description, p.currentLang)
            && q.lightbox.title != ""
  {
  }

  /** Another tab's language write: only the store changes, and it now holds `value`. */
  lemma OtherTabLanguageWrite(catalog: map<string, ProjectRecord>, p: Page, value: string)
    requires WellFormed(catalog)
    requires Consistent(p)
    requires IsLanguage(value)
    ensures var q := Step(catalog, p, OtherTabStored(LanguageKey, value));
            && q == p.(store := p.store[LanguageKey := value])
            && Consistent(q)
            && InitialLanguage(q.store) == value
  {
    OtherTabPreserves(catalog, p, LanguageKey, value);
  }

  /** Once another tab has switched the stored language to English, this tab still shows
      Turkish, but the lightbox opens any project in English: its title differs from the
      one the page language would pick whenever the project's two titles differ. */
  lemma LightboxReadsStore(catalog: map<string, ProjectRecord>, p: Page, id: string)
    requires WellFormed(catalog)
    requires Consistent(p) && StoreAgrees(p) && p.currentLang == "tr"
    requires id in catalog
    ensures var q := Step(catalog, p, OtherTabStored(LanguageKey, "en"));
            var r := Step(catalog, q, ViewButtonClicked(id));
            && Consistent(q) && !StoreAgrees(q)
            && r.currentLang == "tr" && r.title == Title("tr")
            && r.lightbox.title == catalog[id].title.en
            && (catalog[id].title.tr != catalog[id].title.en ==>
                  r.lightbox.title != Pick(catalog[id].title, r.currentLang))
  {
    var q := Step(catalog, p, OtherTabStored(LanguageKey, "en"));
    OtherTabLanguageWrite(catalog, p, "en");
    assert !StoreAgrees(q) by {
      assert q.store[LanguageKey] == "en";
    }
    var r := Step(catalog, q, ViewButtonClicked(id));
    assert r == OpenLightbox(q, catalog, id);
    assert r.currentLang == "tr" && r.title == p.title;
  }

  /** On the site's own catalog: after another tab stores English, a Turkish page opens the
      robots project under its English title. */
  lemma LightboxCanDisagree(p: Page)
    requires Consistent(p) && StoreAgrees(p) && p.currentLang == "tr"
    ensures var q := Step(ProjectData(), p, OtherTabStored(LanguageKey, "en"));
            var r := Step(ProjectData(), q, ViewButtonClicked("frc-robots"));
            && !StoreAgrees(q)
            && r.currentLang == "tr" && r.title == Title("tr")
            && r.lightbox.title == "FRC Team #8795 — Robots"
            && r.lightbox.title != Pick(ProjectData()["frc-robots"].title, r.currentLang)
  {
    var title := ProjectData()["frc-robots"].title;
    assert title == Localized("FRC Takımı #8795 — Robotlar", "FRC Team #8795 — Robots");
    LightboxReadsStore(ProjectData(), p, "frc-robots");
  }

  /** Reloading a page whose store agrees with it reads back the language and theme it
      was showing. */
  lemma ReloadRestoresPreferences(p: Page)
    requires StoreAgrees(p)
    requires p.currentLang != ""
    ensures Boot(p).currentLang == p.currentLang
    ensures Boot(p).theme == p.theme
  {
  }

  /** Choosing the light theme survives a reload, whatever the page started from. */
  lemma LightThemeSurvivesReload(catalog: map<string, ProjectRecord>, p: Page)
    requires WellFormed(catalog)
    requires p.theme == "dark"
    requires IsLanguage(InitialLanguage(p.store))
    ensures var q := Step(catalog, p, ThemeToggleClicked);
            q.theme == "light" && Boot(q).theme == "light"
  {
  }
}

=== FILE: storage.dfy ===
/** The browser's `localStorage`, seen as a map from key to string; a key outside the map
    reads as `null`. Storage failures are not modelled. */
module Storage {

  type Store = map<string, string>

  /** `localStorage.getItem(key) || fallback`: both `null` (absent key) and the empty
      string are falsy in JavaScript, so either one yields the fallback. */
  function GetOr(store: Store, key: string, fallback: string): (r: string)
    ensures r == fallback || (key in store && r == store[key])
    ensures r == "" ==> fallback == ""
    ensures key in store && store[key] != "" ==> r == store[key]
  {
    if key in store && store[key] != "" then store[key] else fallback
  }

  /** Writing a non-empty value is read back verbatim, and leaves every other key alone. */
  lemma SetThenGet(store: Store, key: string, value: string, other: string, fallback: string)
    requires value != ""
    ensures GetOr(store[key := value], key, fallback) == value
    ensures other != key ==> GetOr(store[key := value], other, fallback) == GetOr(store, other, fallback)
  {
  }
}

=== FILE: theme.dfy ===
/** The theme system: the stored preference, `applyTheme` and the theme toggle handler.
    The light theme is the presence of class `light` on the root element. */
module ThemeSystem {
  import opened Storage
  import opened Dom

  const ThemeKey := "theme"
  const LightClass := "light"

  /** The script's starting `theme`: the stored value, or "dark" when it is absent or empty. */
  function InitialTheme(store: Store): (t: string)
    ensures t != ""
    ensures ThemeKey in store && store[ThemeKey] != "" ==> t == store[ThemeKey]
    ensures ThemeKey !in store || store[ThemeKey] == "" ==> t == "dark"
  {
    GetOr(store, ThemeKey, "dark")
  }

  /** The toggle's choice: "light" after "dark", and "dark" after anything else. */
  function NextTheme(t: string): (next: string)
    ensures next == "dark" || next == "light"
    ensures next != t
    ensures t != "dark" && t != "light" ==> next == "dark"
  {
    if t == "dark" then "light" else "dark"
  }

  /** `applyTheme(t)`: the root has class `light` exactly when `t` is "light"; every other
      root class and every other part of the page is untouched. */
  function ApplyTheme(p: Page, t: string): (q: Page)
    ensures LightClass in q.rootClasses <==> t == "light"
    ensures q.rootClasses - {LightClass} == p.rootClasses - {LightClass}
    ensures q == p.(rootClasses := q.rootClasses)
  {
    if t == "light" then p.(rootClasses := p.rootClasses + {LightClass})
    else p.(rootClasses := p.rootClasses - {LightClass})
  }

  /** `applyTheme` is idempotent. */
  lemma ApplyThemeIdempotent(p: Page, t: string)
    ensures ApplyTheme(ApplyTheme(p, t), t) == ApplyTheme(p, t)
  {
  }

  /** The theme toggle handler: flip `theme`, persist it, apply it. */
  function ToggleTheme(p: Page): (q: Page)
    ensures q.theme == NextTheme(p.theme)
    ensures q.store == p.store[ThemeKey := q.theme]
    ensures InitialTheme(q.store) == q.theme
    ensures LightClass in q.rootClasses <==> q.theme == "light"
    ensures q.rootClasses - {LightClass} == p.rootClasses - {LightClass}
    ensures q == p.(theme := q.theme, store := q.store, rootClasses := q.rootClasses)
  {
    var next := NextTheme(p.theme);
    ApplyTheme(p.(theme := next, store := p.store[ThemeKey := next]), next)
  }

  /** Two toggles restore a page whose theme is one of the two modes, is the stored one,
      and is the one the root class shows. */
  lemma ThemeToggleInvolution(p: Page)
    requires p.theme == "dark" || p.theme == "light"
    requires ThemeKey in p.store && p.store[ThemeKey] == p.theme
    requires LightClass in p.rootClasses <==> p.theme == "light"
    ensures ToggleTheme(ToggleTheme(p)) == p
  {
    var q := ToggleTheme(ToggleTheme(p));
    assert q.store == p.store;
    assert q.rootClasses == p.rootClasses by {
      assert q.rootClasses - {LightClass} == p.rootClasses - {LightClass};
    }
  }
}
